=== FILE: README.md ===
# cacheman-memory: the in-memory TTL store, modelled in Dafny

This project models `MemoryStore`, the in-process storage backend of the
cacheman caching facade, in its two variants: the ES-class store of
`lib/index.js` and the older CommonJS store of `index.js`. Each variant
wraps a bounded, recency-ordered container (the `lru-cache` package) whose
values are `{value, expire}` records. `value` is the serialised payload and
`expire` an absolute time in milliseconds.

- `set` serialises the value and stores it with `expire = now + (ttl || 60) * 1000`.
- `get` expires lazily. An entry with `expire < now` is deleted when read and reported as a miss.
- `del` is `set(key, null, -1)`.
- `clear` resets the container.
- `getAll` (ES-class store only) lists every held record without any expiry test.

Each operation is a pure function of the store, the current time `now`,
the serialiser `codec` and its arguments. It returns the callback
invocation(s) it makes (`Reply`: `fn()`, `fn(null, x)` or `fn(e)`) and the
new store.

Files:
- `wrappers.dfy`: `Option` and `Result`.
- `js.dfy`: JavaScript values and the `undefined` argument marker. Also the abstract serialiser (`Codec`, a pair of `stringify`/`parse` functions that may throw) and `Faithful`, the per-value round-trip assumption.
- `lru.dfy`: the bounded recency container. It is a key map plus a recency list, most recent first, under a bound.
- `entry.dfy`: what both variants share. This is the stored record, the ttl argument and expiry, the capacity choice and the reply shape.
- `memory_store.dfy`: `lib/index.js`.
- `legacy_store.dfy`: `index.js`.

The model follows the code in these places, where a reader might expect otherwise:
- An entry with `expire == now` is still live, because the test is a strict `<`.
- `del` writes a `null` payload that has already expired. It is not a no-op, and the key stays held (and listed by `getAll`) until it is read, evicted or cleared.
- In the ES-class store, a payload that fails to parse inside `getAll` throws out of the whole call. Failures are not isolated per entry.
- In the CommonJS store, a serialisation error does not stop `set`. The key is then written with `undefined` and the callback is called a second time with the value.

## Model

| member | source | states |
|---|---|---|
| Lru.SizeIsRecencyLength | lib/index.js:25 | a valid container holds exactly as many keys as its recency list, so never more than the `options.count \|\| 100` bound |
| Lru.Get | lib/index.js:37 | a hit returns the held value and moves the key to the front, the other keys keeping their relative order; the held entries never change; a miss changes nothing |
| Lru.Put | lib/index.js:81 | the key holds the new value and moves to the front, the other keys keeping their relative order; an existing key or a non-full container keeps every other entry; a new key in a full container evicts exactly the least recently used key (the last of the recency list) |
| Lru.Remove | lib/index.js:40 | exactly the given key is dropped, the other keys keep their recency order, and the invariant is kept |
| Lru.Reset | lib/index.js:107 | no key is held afterwards and the bound is kept |
| Lru.PutAllKeepsNewest | lib/index.js:25 | writing distinct keys into an empty container leaves exactly the newest `max` of them, most recent first |
| Lru.OverfillEvictsFirst | lib/index.js:25 | after `max + 1` distinct writes into an empty container the first key is gone and all others are held |
| Lru.ReadProtectsFromEviction | lib/index.js:37 | in a container bounded by 2, writing a then b, reading a, then writing a third key evicts b and keeps a: a read makes a key most recent |
| Lru.ThirdKeyEvictsFirst | lib/index.js:25 | in a container bounded by 2, writing three distinct keys leaves exactly the last two with their values |
| Entry.Capacity | lib/index.js:25 | the bound is `count` when it is a positive number and 100 when it is missing or zero |
| Entry.ExpireAt | lib/index.js:75 | a missing, null or zero ttl, or a callback in the ttl slot, gives now + 60 s; any other ttl gives now + ttl seconds; the expiry is in the past exactly when the ttl is negative |
| MemoryStore.New | lib/index.js:24-26 | an empty store bounded by `options.count \|\| 100`; `null` options throw a TypeError because the default `{}` only replaces `undefined` |
| MemoryStore.Get | lib/index.js:36-50 | an absent key is `fn(null, undefined)` with the store unchanged; an expired record (`expire < now`) is removed, only that key, and `fn()` is called; a live record is parsed, a parse failure is `fn(e)`, and neither path changes any record; a live hit makes the key most recent, and a removal keeps the other keys' recency order |
| MemoryStore.Set | lib/index.js:62-85 | `undefined` is `fn()` with nothing changed; a serialisation failure is `fn(e)` with nothing changed; otherwise the key holds the new payload and expiry and moves to the front with the other keys in their previous order, every other held key keeps its record unless the key is new and the store full, in which case exactly the least recently used key is evicted, and `fn(null, val)` is called |
| MemoryStore.Del | lib/index.js:95-97 | the key is still held afterwards, with the serialised `null` and an expiry already past; if `null` does not serialise, the serialiser's own error is reported and nothing changes |
| MemoryStore.Clear | lib/index.js:106-109 | no key is held afterwards, the bound is kept, and `fn()` is called |
| MemoryStore.ListAll | lib/index.js:122-124 | enumeration succeeds exactly when every payload parses, with one listing per key in order carrying the parsed data; otherwise it fails with the first failing key's error |
| MemoryStore.GetAll | lib/index.js:118-127 | on success, one `{key, data}` per held key, no key twice, each data the parse of that key's payload; it fails exactly when some held payload does not parse, with that payload's error |
| MemoryStore.SetThenGet | lib/index.js:72-83 | a faithfully serialisable value (`0`, `false`, `null` included) reads back unchanged at any time up to its expiry |
| MemoryStore.ExpiresAfterTtl | test/index.js:107-119 | a key set with ttl 1 is a miss, and is dropped, once more than 1000 ms have passed |
| MemoryStore.DelHidesButKeeps | lib/index.js:95-97 | after `del`, the key is still held and `getAll` lists it with data `null`; any later `get` calls `fn()` and drops it |
| MemoryStore.DelOfAbsentKeyEvicts | lib/index.js:95-97 | `del` of a key not held, on a full store, evicts the least recently used entry |
| MemoryStore.GetAllListsExpired | lib/index.js:118-126 | an expired entry not yet read is still listed by `getAll` |
| MemoryStore.ClearEmpties | lib/index.js:106-109 | after `clear`, `getAll` is empty and every `get` is a miss |
| MemoryStore.CapacityTwoEvictsFirst | lib/index.js:24-25 | with `count: 2`, setting a, b, c leaves a missing while b and c read back their values |
| MemoryStore.ReadProtectsFromEviction | lib/index.js:37 | with `count: 2`, setting a and b, reading a, then setting c evicts b and keeps a and c |
| MemoryStore.GetRepeatable | lib/index.js:43-49 | reading a live entry does not change what a later read, still before expiry, returns |
| LegacyStore.New | index.js:24-28 | `null` or `undefined` options give the default; the bound is `options.count \|\| 100`; the store starts empty |
| LegacyStore.Get | index.js:38-51 | an absent key or a key holding `undefined` gives `fn(null, undefined)` with no record changed; an expired record is removed and `fn()` is called; a live record is parsed, a failure is `fn(e)` and the entry is kept; a hit that does not remove the key (`undefined` slot or live record) makes it most recent, and a removal keeps the other keys' recency order |
| LegacyStore.Set | index.js:63-85 | `undefined` gives `fn(null, null)` with nothing changed; success overwrites the key and calls `fn(null, val)`; a serialisation failure calls `fn(e)` and then `fn(null, val)` and leaves `undefined` under the key; either way the key moves to the front with the other keys in their previous order, and every other held key keeps its slot unless the key is new and the store full, in which case exactly the least recently used key is evicted |
| LegacyStore.Del | index.js:95-98 | the key is held afterwards with the serialised `null` and an expiry already past, and `fn(null, null)` is called; if `null` does not serialise, `fn(e)` then `fn(null, null)` are called and the key holds `undefined` |
| LegacyStore.Clear | index.js:108-112 | the whole store is emptied whatever the prefix; the callback is called once if given in the second position, and not at all if passed alone |
| LegacyStore.SetPuts | index.js:83 | every `set` of a defined value, successful or not, is exactly a container `set` of the slot it writes |
| LegacyStore.SetThenGet | index.js:63-85 | a faithfully serialisable value reads back unchanged at any time up to its expiry |
| LegacyStore.FailedSetLosesValue | index.js:74-84 | after a serialisation failure the caller hears the error and then a success, and a later `get` of the key misses while the key stays held |
| LegacyStore.DelThenGetMisses | index.js:95-98 | any `get` after `del` is a miss, and it removes the key when `null` serialises |
| LegacyStore.ClearThenGetMisses | index.js:108-111 | after `clear`, with any prefix, every `get` misses |
| LegacyStore.NullOptionsAccepted | index.js:25-27 | `null` options behave as no options, giving a bound of 100 |

## Left out

- The `lru-cache` package is not part of this model. Its behaviour is modelled from its documented contract as the `Lru` module: recency promotion on read and write, and least-recently-used eviction on insert into a full container. These are modelling assumptions, not facts proved about that package.
- Entry.Capacity: only missing or non-negative whole-number `count` values are modelled. A negative, fractional or non-number `count` is handed to `lru-cache`, whose reading of it is not part of this model.
- JavaScript numbers are modelled as whole numbers (`Js.Num`). Fractions, `NaN`, `Infinity` and `-0`, and how JSON serialises them, are not modelled.
- Entry.ExpireAt: only whole-second numeric ttls are modelled. Fractional, `NaN` and string ttls, which JavaScript coerces, are left out.
- `Date.now()` is the `now` parameter, so time is supplied by the caller.
- `JSON.stringify` and `JSON.parse` are the abstract `Codec`. A JSON round trip is not the identity for every JavaScript value, so round trips are proved only for values assumed `Faithful`.
- `setImmediate` and `process.nextTick` deferral is not modelled. Replies are returned directly. The runtime is single-threaded, so there is no concurrency to model.
- LegacyStore.Get: a callback that throws inside the `try` of index.js:46-50 would be called again with its own error. Callbacks are caller code and are not modelled.
- `getAll`'s unused `this.client.keys()` call (lib/index.js:120) and the CommonJS store's unused `bucket` (index.js:26) have no effect and are not modelled.
- The whole test file loads `../src/index` (test/index.js:2), which is not part of this model. `MemoryStore.ExpiresAfterTtl` only restates the scenario of its "should expire key" test against the modelled store. Its "should not expire key" test (test/index.js:148-160) contradicts both modelled variants, where a ttl of -1 expires immediately (`MemoryStore.Del`, `LegacyStore.DelThenGetMisses`), and is not encoded.
- MemoryStore.New: the `TypeError` message text depends on the JavaScript engine version; the model fixes one wording, and only the error being a `TypeError` is meant.
- Keys are strings. The container's handling of non-string keys is not modelled.

=== FILE: entry.dfy ===
/**
 What both store variants share: the record kept per key, the `ttl`
 argument and the expiry computed from it, the capacity chosen from the
 constructor options, and the shape of a callback invocation.
 */
module Entry {
  import opened Wrappers
  import opened Js

  /** The `{value, expire}` object stored per key: the serialised payload
      and an absolute expiry in milliseconds. */
  datatype Record = Record(value: Payload, expire: int)

  /** The `ttl` argument of `set`, in seconds. `TtlCallback` is a callback
      passed in the `ttl` position, which `set` moves to `fn` and replaces
      by `null`. Only whole seconds are modelled. */
  datatype TtlArg = TtlOmitted | TtlNull | TtlNumber(seconds: int) | TtlCallback

  /** `ttl || 60`, after a callback in the `ttl` position became `null`. */
  function TtlSeconds(ttl: TtlArg): (n: int)
  {
    match ttl
    case TtlNumber(s) => if s != 0 then s else 60
    case _ => 60
  }

  /** `Date.now() + ((ttl || 60) * 1000)`: a missing, null or zero ttl (or a
      callback in its place) means sixty seconds; any other ttl is taken as
      given, so a negative ttl yields an expiry already in the past. */
  function ExpireAt(now: int, ttl: TtlArg): (e: int)
    ensures ttl in {TtlOmitted, TtlNull, TtlNumber(0), TtlCallback} ==> e == now + 60000
    ensures ttl.TtlNumber? && ttl.seconds != 0 ==> e == now + ttl.seconds * 1000
    ensures e < now <==> ttl.TtlNumber? && ttl.seconds < 0
  {
    now + TtlSeconds(ttl) * 1000
  }

  /** `data.expire < Date.now()`: an entry whose expiry equals the current
      time is still live. */
  predicate Expired(r: Record, now: int)
  {
    r.expire < now
  }

  /** One invocation of the caller's callback: `fn()`, `fn(null, x)` or
      `fn(e)`. */
  datatype Reply = NoArgs | Ok(value: Arg) | Err(error: Exception)
  {
    /** The caller learns of no value and no error. */
    predicate Miss()
    {
      NoArgs? || this == Ok(Undefined)
    }
  }

  /** The `options` argument of a constructor; `count` is its optional
      `count` property. */
  datatype OptionsArg = OptionsUndefined | OptionsNull | OptionsObject(count: Option<nat>)

  /** `options.count || 100`. */
  function Capacity(count: Option<nat>): (n: nat)
    ensures n >= 1
    ensures count.Some? && count.value > 0 ==> n == count.value
    ensures count == None || count == Some(0) ==> n == 100
  {
    match count
    case Some(c) => if c != 0 then c else 100
    case None => 100
  }
}

=== FILE: js.dfy ===
/**
 The JavaScript values the store handles, the `undefined` argument marker,
 and the serialiser the store uses to turn values into stored payloads and
 back. The serialiser is abstract: a JSON round trip is not the identity for
 every JavaScript value (functions and symbols stringify to `undefined`,
 cyclic structures and big integers throw), so the model only assumes a
 round trip for the particular values it is told about (`Faithful`).
 Numbers are modelled as whole numbers only.
 */
module Js {
  import opened Wrappers

  /** A defined JavaScript value; `Num` holds whole numbers only. `Other`
      stands for the non-JSON values functions, symbols, big integers and
      cyclic objects. */
  datatype JsValue =
    | Null
    | Bool(b: bool)
    | Num(n: int)
    | Str(s: string)
    | Arr(items: seq<JsValue>)
    | Obj(fields: seq<(string, JsValue)>)
    | Other(tag: nat)

  /** An argument position: either `undefined` or a defined value
      (`null` is a defined value). */
  datatype Arg = Undefined | Defined(value: JsValue)

  /** What the serialiser produced: a JSON text, or `undefined`, which
      `JSON.stringify` returns for functions and symbols. */
  datatype Payload = Text(text: string) | NoText

  /** A thrown JavaScript error. */
  datatype Exception = Exception(name: string, message: string)

  /** The serialiser pair (`JSON.stringify`, `JSON.parse`), each of which
      may throw. */
  datatype Codec = Codec(
    stringify: JsValue -> Result<Payload, Exception>,
    parse: Payload -> Result<JsValue, Exception>)

  /** `v` serialises without throwing and parses back to itself. */
  predicate Faithful(codec: Codec, v: JsValue)
  {
    && codec.stringify(v).Success?
    && codec.parse(codec.stringify(v).value) == Success(v)
  }
}

=== FILE: legacy_store.dfy ===
/**
 The older CommonJS `MemoryStore` (index.js). It keeps the same records as
 the ES-class version but calls back synchronously, accepts `null` options,
 and does not stop after a serialisation error: the key is then written
 with an `undefined` value (`Hole`) and the callback is called twice.
 The `bucket` constructor argument is stored and never read, so it is not
 part of the state.
 */
module LegacyStore {
  import opened Wrappers
  import opened Js
  import opened Entry
  import Lru

  /** What the container holds for a key: a record, or `undefined` left by
      a `set` whose serialisation threw. */
  datatype Slot = Filled(record: Record) | Hole

  datatype Store = Store(client: Lru.Cache<Slot>)

  ghost predicate Valid(s: Store)
  {
    Lru.Valid(s.client)
  }

  /** `MemoryStore(options, bucket)`: `options || {}`, so `null` and
      `undefined` both mean no options; the bound is `options.count || 100`. */
  function New(options: OptionsArg): (s: Store)
    ensures Valid(s) && s.client.items == map[]
    ensures options.OptionsObject? && options.count.Some? && options.count.value > 0 ==>
              s.client.max == options.count.value
    ensures !(options.OptionsObject? && options.count.Some? && options.count.value > 0) ==>
              s.client.max == 100
  {
    match options
    case OptionsObject(count) => Store(Lru.Empty(Capacity(count)))
    case _ => Store(Lru.Empty(Capacity(None)))
  }

  /** `get(key, fn)`: an absent key, or a key holding `undefined`, is a miss
      that keeps the store's entries; an expired record is removed and
      reported with no arguments; a live record is parsed, and a parse
      failure is reported without touching the entry. Reading a held key
      that is not removed makes it the most recently used. */
  function Get(s: Store, key: Lru.Key, now: int, codec: Codec): (r: (Reply, Store))
    requires Valid(s)
    ensures Valid(r.1) && r.1.client.max == s.client.max
    ensures key !in s.client.items ==> r.0 == Ok(Undefined) && r.1 == s
    ensures key in s.client.items && s.client.items[key] == Hole ==>
              && r.0 == Ok(Undefined) && r.1.client.items == s.client.items
              && r.1.client.recency == [key] + Lru.Without(s.client.recency, key)
    ensures key in s.client.items && s.client.items[key].Filled? ==>
              var record := s.client.items[key].record;
              && (Expired(record, now) ==>
                    && r.0 == NoArgs && r.1.client.items == s.client.items - {key}
                    && r.1.client.recency == Lru.Without(s.client.recency, key))
              && (!Expired(record, now) ==>
                    && r.1.client.items == s.client.items
                    && r.1.client.recency == [key] + Lru.Without(s.client.recency, key)
                    && match codec.parse(record.value)
                       case Success(v) => r.0 == Ok(Defined(v))
                       case Failure(e) => r.0 == Err(e))
  {
    var (data, client) := Lru.Get(s.client, key);
    if data.None? || data.value.Hole? then
      (Ok(Undefined), Store(client))
    else
      var record := data.value.record;
      if Expired(record, now) then
        (NoArgs, Store(Lru.Remove(client, key)))
      else
        match codec.parse(record.value)
        case Failure(e) => (Err(e), Store(client))
        case Success(v) => (Ok(Defined(v)), Store(client))
  }

  /** `set(key, val, ttl, fn)`: an `undefined` value changes nothing and
      calls back with `(null, null)`; otherwise the key is overwritten and
      the value echoed back. When serialisation throws, the error is
      reported first, the key is overwritten with `undefined`, and the
      value is echoed back all the same. The key becomes the most recently
      used, and every other held key keeps its slot except that a new key
      written into a full store evicts the least recently used one. */
  function Set(s: Store, key: Lru.Key, val: Arg, ttl: TtlArg, now: int, codec: Codec): (r: (seq<Reply>, Store))
    requires Valid(s)
    ensures Valid(r.1) && r.1.client.max == s.client.max
    ensures val.Undefined? ==> r.0 == [Ok(Defined(Null))] && r.1 == s
    ensures val.Defined? ==>
              && key in r.1.client.items
              && (forall k :: k in r.1.client.items && k != key ==>
                    k in s.client.items && r.1.client.items[k] == s.client.items[k])
              && match codec.stringify(val.value)
                 case Success(p) =>
                   r.0 == [Ok(val)] && r.1.client.items[key] == Filled(Record(p, ExpireAt(now, ttl)))
                 case Failure(e) =>
                   r.0 == [Err(e), Ok(val)] && r.1.client.items[key] == Hole
    ensures val.Defined? ==>
              var slot := r.1.client.items[key];
              && r.1.client.recency[0] == key
              && (key in s.client.items || |s.client.items| < s.client.max ==>
                    && r.1.client.items == s.client.items[key := slot]
                    && r.1.client.recency == [key] + Lru.Without(s.client.recency, key))
              && (key !in s.client.items && |s.client.items| == s.client.max ==>
                    && |s.client.recency| > 0
                    && r.1.client.items == (s.client.items - {Lru.Oldest(s.client)})[key := slot]
                    && r.1.client.recency == [key] + s.client.recency[..|s.client.recency| - 1])
  {
    match val
    case Undefined => ([Ok(Defined(Null))], s)
    case Defined(v) =>
      match codec.stringify(v)
      case Failure(e) => ([Err(e), Ok(val)], Store(Lru.Put(s.client, key, Hole)))
      case Success(payload) =>
        ([Ok(val)], Store(Lru.Put(s.client, key, Filled(Record(payload, ExpireAt(now, ttl))))))
  }

  /** Any `set` of a defined value is a container `set` of the slot it
      writes, so the container's recency rules apply to it. */
  lemma SetPuts(s: Store, key: Lru.Key, v: JsValue, ttl: TtlArg, now: int, codec: Codec)
    requires Valid(s)
    ensures var s1 := Set(s, key, Defined(v), ttl, now, codec).1;
      s1.client == Lru.Put(s.client, key, s1.client.items[key])
  {
  }

  /** `del(key, fn)`: `set(key, null, -1, fn)`. */
  function Del(s: Store, key: Lru.Key, now: int, codec: Codec): (r: (seq<Reply>, Store))
    requires Valid(s)
    ensures Valid(r.1) && r.1.client.max == s.client.max
    ensures key in r.1.client.items
    ensures codec.stringify(Null).Success? ==>
              && r.0 == [Ok(Defined(Null))]
              && r.1.client.items[key].Filled?
              && r.1.client.items[key].record.value == codec.stringify(Null).value
              && Expired(r.1.client.items[key].record, now)
    ensures codec.stringify(Null).Failure? ==>
              && r.0 == [Err(codec.stringify(Null).error), Ok(Defined(Null))]
              && r.1.client.items[key] == Hole
  {
    Set(s, key, Defined(Null), TtlNumber(-1), now, codec)
  }

  /** The first argument of `clear(prefix, fn)`. A lone callback lands
      here. */
  datatype Prefix = PrefixOmitted | PrefixString(s: string) | PrefixCallback

  /** `clear(prefix, fn)`: empties the whole store whatever the prefix and
      calls back with no arguments if a callback was given in the second
      position; a callback passed alone is taken as the prefix and never
      called. */
  function Clear(s: Store, prefix: Prefix, callbackGiven: bool): (r: (seq<Reply>, Store))
    requires Valid(s)
    ensures Valid(r.1) && r.1.client.max == s.client.max
    ensures r.1.client.items == map[]
    ensures callbackGiven ==> r.0 == [NoArgs]
    ensures !callbackGiven ==> r.0 == []
  {
    (if callbackGiven then [NoArgs] else [], Store(Lru.Reset(s.client)))
  }

  /** Round trip: a value that serialises faithfully reads back unchanged
      until its expiry. */
  lemma SetThenGet(s: Store, key: Lru.Key, v: JsValue, ttl: TtlArg, now: int, later: int, codec: Codec)
    requires Valid(s) && Faithful(codec, v)
    requires later <= ExpireAt(now, ttl)
    ensures var (acks, s1) := Set(s, key, Defined(v), ttl, now, codec);
      acks == [Ok(Defined(v))] && Get(s1, key, later, codec).0 == Ok(Defined(v))
  {
  }

  /** A value that fails to serialise loses whatever the key held before:
      the caller hears the error and then a success, and every later `get`
      of the key is a miss that leaves the key in place. */
  lemma FailedSetLosesValue(s: Store, key: Lru.Key, v: JsValue, ttl: TtlArg, now: int, later: int, codec: Codec)
    requires Valid(s) && codec.stringify(v).Failure?
    ensures var (acks, s1) := Set(s, key, Defined(v), ttl, now, codec);
      && acks == [Err(codec.stringify(v).error), Ok(Defined(v))]
      && Get(s1, key, later, codec).0 == Ok(Undefined)
      && key in Get(s1, key, later, codec).1.client.items
  {
  }

  /** After `del`, every later `get` of the key is a miss; when `null`
      serialises, that `get` also removes the key. */
  lemma DelThenGetMisses(s: Store, key: Lru.Key, now: int, later: int, codec: Codec)
    requires Valid(s) && later >= now
    ensures var s1 := Del(s, key, now, codec).1;
      && Get(s1, key, later, codec).0.Miss()
      && (codec.stringify(Null).Success? ==> key !in Get(s1, key, later, codec).1.client.items)
  {
  }

  /** `new MemoryStore(null)` is the same as `new MemoryStore()`. */
  lemma NullOptionsAccepted()
    ensures New(OptionsNull) == New(OptionsUndefined)
    ensures New(OptionsNull).client.max == 100
  {
  }

  /** After `clear`, every `get` misses, whatever prefix was passed. */
  lemma ClearThenGetMisses(s: Store, prefix: Prefix, callbackGiven: bool, key: Lru.Key, now: int, codec: Codec)
    requires Valid(s)
    ensures Get(Clear(s, prefix, callbackGiven).1, key, now, codec).0 == Ok(Undefined)
  {
  }
}

=== FILE: lru.dfy ===
/**
 The bounded, recency-ordered container the store wraps (the `lru-cache`
 package, which is not part of this model). It is modelled from its
 documented behaviour: a key/value map holding at most `max` keys, where
 reading or writing a key makes it the most recently used one, and writing
 a new key into a full container first evicts the least recently used key.
 Nothing here looks at expiry: the container is blind to time-to-live.
 */
module Lru {
  import opened Wrappers

  type Key = string

  /** `recency[0]` is the most recently used key; the last element is the
      least recently used one, the next to be evicted. */
  datatype Cache<V> = Cache(max: nat, items: map<Key, V>, recency: seq<Key>)

  predicate Distinct(s: seq<Key>)
  {
    forall i, j :: 0 <= i < j < |s| ==> s[i] != s[j]
  }

  /** The container's invariant: a positive bound, a recency list without
      repetitions naming exactly the held keys, and no more of them than
      the bound. */
  ghost predicate Valid<V>(c: Cache<V>)
  {
    && c.max >= 1
    && |c.recency| <= c.max
    && Distinct(c.recency)
    && (forall k :: k in c.items <==> k in c.recency)
  }

  lemma DistinctCons(a: Key, t: seq<Key>)
    requires Distinct(t) && a !in t
    ensures Distinct([a] + t)
  {
    forall i, j | 0 <= i < j < |[a] + t|
      ensures ([a] + t)[i] != ([a] + t)[j]
    {
      if i == 0 {
        assert ([a] + t)[j] == t[j - 1];
      } else {
        assert ([a] + t)[i] == t[i - 1] && ([a] + t)[j] == t[j - 1];
      }
    }
  }

  /** `s` with `k` taken out, the order of the others kept. */
  function Without(s: seq<Key>, k: Key): (r: seq<Key>)
    ensures forall x :: x in r <==> x in s && x != k
    ensures Distinct(s) ==> Distinct(r)
    ensures k !in s ==> r == s
    ensures Distinct(s) && k in s ==> |r| == |s| - 1
    ensures |r| <= |s|
  {
    if s == [] then []
    else if s[0] == k then Without(s[1..], k)
    else
      var t := Without(s[1..], k);
      assert Distinct(s) ==> Distinct(s[1..]) && s[0] !in s[1..];
      if Distinct(s) then DistinctCons(s[0], t); [s[0]] + t
      else [s[0]] + t
  }

  lemma {:induction false} DistinctCardinality(s: seq<Key>)
    requires Distinct(s)
    ensures |set x | x in s| == |s|
  {
    if s != [] {
      DistinctCardinality(s[1..]);
      assert (set x | x in s) == {s[0]} + (set x | x in s[1..]);
      assert s[0] !in (set x | x in s[1..]);
    }
  }

  /** A valid container holds exactly as many keys as its recency list is
      long, hence never more than its bound. */
  lemma SizeIsRecencyLength<V>(c: Cache<V>)
    requires Valid(c)
    ensures |c.items| == |c.recency|
    ensures |c.items| <= c.max
  {
    DistinctCardinality(c.recency);
    assert c.items.Keys == set x | x in c.recency;
  }

  /** A new, empty container bounded by `max` (the `lru(max)` call). */
  function Empty<V>(max: nat): (c: Cache<V>)
    requires max >= 1
    ensures Valid(c)
    ensures c.max == max && c.items == map[]
  {
    Cache(max, map[], [])
  }

  /** The key the next insertion into a full container evicts. */
  function Oldest<V>(c: Cache<V>): (k: Key)
    requires |c.recency| > 0
  {
    c.recency[|c.recency| - 1]
  }

  /** `get`: look a key up; on a hit the key becomes the most recently
      used and the other keys keep their relative order. The held entries
      never change. */
  function Get<V>(c: Cache<V>, k: Key): (r: (Option<V>, Cache<V>))
    requires Valid(c)
    ensures Valid(r.1) && r.1.max == c.max && r.1.items == c.items
    ensures k in c.items ==> r.0 == Some(c.items[k]) && r.1.recency == [k] + Without(c.recency, k)
    ensures k !in c.items ==> r.0 == None && r.1 == c
  {
    if k in c.items then (Some(c.items[k]), Cache(c.max, c.items, [k] + Without(c.recency, k)))
    else (None, c)
  }

  /** The entries and recency list after writing `k`, before any
      eviction. */
  lemma PromoteValid<V>(c: Cache<V>, k: Key, v: V)
    requires Valid(c) && (k in c.items || |c.recency| < c.max)
    ensures Valid(Cache(c.max, c.items[k := v], [k] + Without(c.recency, k)))
  {
    var rest := Without(c.recency, k);
    DistinctCons(k, rest);
  }

  /** Dropping the last key of a distinct list leaves a distinct list
      holding every other key. */
  lemma DropLast(s: seq<Key>)
    requires Distinct(s) && |s| > 0
    ensures Distinct(s[..|s| - 1])
    ensures forall x :: x in s[..|s| - 1] <==> x in s && x != s[|s| - 1]
  {
    var kept := s[..|s| - 1];
    assert s == kept + [s[|s| - 1]];
    forall x | x in s && x != s[|s| - 1]
      ensures x in kept
    {
      var i :| 0 <= i < |s| && s[i] == x;
      assert i < |s| - 1;
      assert kept[i] == x;
    }
  }

  lemma EvictValid<V>(c: Cache<V>, k: Key, v: V)
    requires Valid(c) && k !in c.items && |c.recency| == c.max
    ensures var rest := Without(c.recency, k);
      Valid(Cache(c.max, (c.items - {Oldest(c)})[k := v], [k] + rest[..|rest| - 1]))
  {
    var rest := Without(c.recency, k);
    assert rest == c.recency;
    var kept := rest[..|rest| - 1];
    DropLast(rest);
    DistinctCons(k, kept);
    var items := (c.items - {Oldest(c)})[k := v];
    var order := [k] + kept;
    forall x
      ensures x in items <==> x in order
    {
      assert x in items <==> x == k || (x in c.items && x != Oldest(c));
      assert x in order <==> x == k || x in kept;
    }
    assert |order| <= c.max;
    assert Valid(Cache(c.max, items, order));
  }

  /** `set`: store `v` under `k` and make `k` the most recently used key,
      the other keys keeping their relative order. A new key written into
      a full container evicts the least recently used key first; no other
      key is touched. */
  function Put<V>(c: Cache<V>, k: Key, v: V): (r: Cache<V>)
    requires Valid(c)
    ensures Valid(r) && r.max == c.max
    ensures k in r.items && r.items[k] == v && r.recency[0] == k
    ensures k in c.items || |c.items| < c.max ==>
              r.items == c.items[k := v] && r.recency == [k] + Without(c.recency, k)
    ensures k !in c.items && |c.items| == c.max ==>
              && |c.recency| > 0
              && r.items == (c.items - {Oldest(c)})[k := v]
              && r.recency == [k] + c.recency[..|c.recency| - 1]
  {
    SizeIsRecencyLength(c);
    var rest := Without(c.recency, k);
    if k in c.items || |c.recency| < c.max then
      PromoteValid(c, k, v);
      Cache(c.max, c.items[k := v], [k] + rest)
    else
      EvictValid(c, k, v);
      Cache(c.max, (c.items - {Oldest(c)})[k := v], [k] + rest[..|rest| - 1])
  }

  /** `del`: drop a key if it is held, the other keys keeping their
      recency order. */
  function Remove<V>(c: Cache<V>, k: Key): (r: Cache<V>)
    requires Valid(c)
    ensures Valid(r) && r.max == c.max
    ensures r.items == c.items - {k}
    ensures r.recency == Without(c.recency, k)
  {
    Cache(c.max, c.items - {k}, Without(c.recency, k))
  }

  /** `reset`: drop every key, keeping the bound. */
  function Reset<V>(c: Cache<V>): (r: Cache<V>)
    requires Valid(c)
    ensures Valid(r) && r.max == c.max
    ensures forall k :: k !in r.items
  {
    Cache(c.max, map[], [])
  }

  /** Writes every key of `ks`, in order, with the value `v`. */
  function PutAll<V>(c: Cache<V>, ks: seq<Key>, v: V): (r: Cache<V>)
    requires Valid(c)
    ensures Valid(r) && r.max == c.max
  {
    if ks == [] then c else Put(PutAll(c, ks[..|ks| - 1], v), ks[|ks| - 1], v)
  }

  /** `r` holds the newest `max` keys of `ks`, most recent first. */
  ghost predicate HoldsNewest<V>(r: Cache<V>, ks: seq<Key>)
  {
    && |r.recency| == (if |ks| < r.max then |ks| else r.max)
    && forall i :: 0 <= i < |r.recency| ==> r.recency[i] == ks[|ks| - 1 - i]
  }

  /** Writing a key that is not held puts it in front of the recency list,
      dropping the last key when the container is full. */
  lemma PutFreshRecency<V>(p: Cache<V>, k: Key, v: V)
    requires Valid(p) && k !in p.items
    ensures |p.recency| < p.max ==> Put(p, k, v).recency == [k] + p.recency
    ensures |p.recency| == p.max ==>
              Put(p, k, v).recency == [k] + p.recency[..|p.recency| - 1]
  {
    SizeIsRecencyLength(p);
  }

  /** The newest-first window over `init`, bounded by `max`, after one
      more key is written in front. */
  lemma NewestWindowStep(prev: seq<Key>, init: seq<Key>, k: Key, max: nat)
    requires max >= 1
    requires |prev| == (if |init| < max then |init| else max)
    requires forall i :: 0 <= i < |prev| ==> prev[i] == init[|init| - 1 - i]
    ensures var kept := if |prev| < max then prev else prev[..|prev| - 1];
      var ks := init + [k];
      var window := [k] + kept;
      && |window| == (if |ks| < max then |ks| else max)
      && forall i :: 0 <= i < |window| ==> window[i] == ks[|ks| - 1 - i]
  {
    var kept := if |prev| < max then prev else prev[..|prev| - 1];
    var ks := init + [k];
    var window := [k] + kept;
    forall i | 0 <= i < |window|
      ensures window[i] == ks[|ks| - 1 - i]
    {
      if i > 0 {
        assert window[i] == prev[i - 1];
        assert prev[i - 1] == init[|init| - 1 - (i - 1)];
      }
    }
  }

  lemma NewestStep<V>(p: Cache<V>, init: seq<Key>, k: Key, v: V)
    requires Valid(p) && HoldsNewest(p, init) && k !in init
    ensures HoldsNewest(Put(p, k, v), init + [k])
  {
    assert forall i :: 0 <= i < |p.recency| ==> p.recency[i] != k;
    assert k !in p.items;
    PutFreshRecency(p, k, v);
    NewestWindowStep(p.recency, init, k, p.max);
  }

  /** Writing distinct keys into an empty container leaves the newest
      `max` of them, most recent first: every older key has been evicted. */
  lemma {:induction false} PutAllKeepsNewest<V>(c: Cache<V>, ks: seq<Key>, v: V)
    requires Valid(c) && c.items == map[]
    requires Distinct(ks)
    ensures HoldsNewest(PutAll(c, ks, v), ks)
  {
    if ks == [] {
      SizeIsRecencyLength(c);
    } else {
      var init := ks[..|ks| - 1];
      assert Distinct(init);
      assert ks == init + [ks[|ks| - 1]];
      PutAllKeepsNewest(c, init, v);
      NewestStep(PutAll(c, init, v), init, ks[|ks| - 1], v);
    }
  }

  /** Writing `max + 1` distinct keys into an empty container evicts the
      first of them and keeps all the others. */
  lemma OverfillEvictsFirst<V>(c: Cache<V>, ks: seq<Key>, v: V)
    requires Valid(c) && c.items == map[]
    requires Distinct(ks) && |ks| == c.max + 1
    ensures ks[0] !in PutAll(c, ks, v).items
    ensures forall i :: 1 <= i < |ks| ==> ks[i] in PutAll(c, ks, v).items
  {
    PutAllKeepsNewest(c, ks, v);
    var r := PutAll(c, ks, v);
    forall i | 1 <= i < |ks|
      ensures ks[i] in r.items
    {
      assert r.recency[|ks| - 1 - i] == ks[i];
    }
    assert forall j :: 0 <= j < |r.recency| ==> r.recency[j] != ks[0];
  }

  /** In a container bounded by 2, writing three distinct keys keeps only
      the last two. */
  lemma ThirdKeyEvictsFirst<V>(c: Cache<V>, a: Key, b: Key, x: Key, va: V, vb: V, vx: V)
    requires Valid(c) && c.max == 2 && c.items == map[]
    requires a != b && b != x && a != x
    ensures Put(Put(Put(c, a, va), b, vb), x, vx).items == map[b := vb, x := vx]
  {
    SizeIsRecencyLength(c);
    var c1 := Put(c, a, va);
    SizeIsRecencyLength(c1);
    var c2 := Put(c1, b, vb);
    assert c2.recency == [b, a];
    SizeIsRecencyLength(c2);
    assert c2.items == map[a := va, b := vb];
    assert Oldest(c2) == a;
  }

  /** Two distinct writes into an empty container, newest first. */
  lemma TwoWrites<V>(c: Cache<V>, a: Key, b: Key, va: V, vb: V)
    requires Valid(c) && c.max == 2 && c.items == map[] && a != b
    ensures Put(Put(c, a, va), b, vb).recency == [b, a]
    ensures Put(Put(c, a, va), b, vb).items == map[a := va, b := vb]
  {
    SizeIsRecencyLength(c);
    var c1 := Put(c, a, va);
    PutFreshRecency(c, a, va);
    assert c1.recency == [a];
    PutFreshRecency(c1, b, vb);
  }

  /** Reading a key protects it from the next eviction: in a container
      bounded by 2, after writing `a` then `b` and reading `a`, writing a
      third key evicts `b`, not `a`. */
  lemma ReadProtectsFromEviction<V>(c: Cache<V>, a: Key, b: Key, x: Key, va: V, vb: V, vx: V)
    requires Valid(c) && c.max == 2 && c.items == map[]
    requires a != b && b != x && a != x
    ensures var c2 := Put(Put(c, a, va), b, vb);
      Put(Get(c2, a).1, x, vx).items == map[a := va, x := vx]
  {
    var c2 := Put(Put(c, a, va), b, vb);
    TwoWrites(c, a, b, va, vb);
    var g := Get(c2, a).1;
    var w := Without(c2.recency, a);
    assert |w| == 1 && b in w;
    assert w == [b];
    assert g.recency == [a, b];
    SizeIsRecencyLength(g);
    assert Oldest(g) == b;
  }
}

=== FILE: memory_store.dfy ===
/**
 The ES-class `MemoryStore` (lib/index.js): a time-to-live cache over the
 bounded recency container. The clock is the `now` argument (milliseconds),
 the serialiser is the `codec` argument, and each operation returns the
 callback invocation it makes together with the new store; the deferral of
 that invocation to a later turn of the event loop is not modelled.
 */
module MemoryStore {
  import opened Wrappers
  import opened Js
  import opened Entry
  import Lru

  datatype Store = Store(client: Lru.Cache<Record>)

  ghost predicate Valid(s: Store)
  {
    Lru.Valid(s.client)
  }

  /** What `new MemoryStore(null)` throws: the default `{}` only replaces
      an `undefined` argument, so `null.count` is read. */
  const NullOptionsError := Exception("TypeError", "Cannot read properties of null (reading 'count')")

  /** `constructor(options = {})`: a store bounded by `options.count`, or by
      100 when that is missing or zero. */
  function New(options: OptionsArg): (r: Result<Store, Exception>)
    ensures r.Failure? <==> options.OptionsNull?
    ensures r.Failure? ==> r.error == NullOptionsError && r.error.name == "TypeError"
    ensures r.Success? ==> Valid(r.value) && r.value.client.items == map[]
    ensures options.OptionsUndefined? ==> r.Success? && r.value.client.max == 100
    ensures options.OptionsObject? && options.count.Some? && options.count.value > 0 ==>
              r.Success? && r.value.client.max == options.count.value
    ensures options.OptionsObject? && options.count in {None, Some(0)} ==>
              r.Success? && r.value.client.max == 100
  {
    match options
    case OptionsUndefined => Success(Store(Lru.Empty(Capacity(None))))
    case OptionsNull => Failure(NullOptionsError)
    case OptionsObject(count) => Success(Store(Lru.Empty(Capacity(count))))
  }

  /** `get(key, fn)`: an absent key is a miss; an expired entry is removed
      and reported as a miss with no arguments; a live entry is parsed, and
      a parse failure is reported without touching the entry. Reading a key
      promotes it in the container but never changes a held record. */
  function Get(s: Store, key: Lru.Key, now: int, codec: Codec): (r: (Reply, Store))
    requires Valid(s)
    ensures Valid(r.1) && r.1.client.max == s.client.max
    ensures key !in s.client.items ==> r.0 == Ok(Undefined) && r.1 == s
    ensures key in s.client.items && Expired(s.client.items[key], now) ==>
              && r.0 == NoArgs && r.1.client.items == s.client.items - {key}
              && r.1.client.recency == Lru.Without(s.client.recency, key)
    ensures key in s.client.items && !Expired(s.client.items[key], now) ==>
              && r.1.client.items == s.client.items
              && r.1.client.recency == [key] + Lru.Without(s.client.recency, key)
              && match codec.parse(s.client.items[key].value)
                 case Success(v) => r.0 == Ok(Defined(v))
                 case Failure(e) => r.0 == Err(e)
  {
    var (data, client) := Lru.Get(s.client, key);
    match data
    case None => (Ok(Undefined), Store(client))
    case Some(record) =>
      if Expired(record, now) then
        (NoArgs, Store(Lru.Remove(client, key)))
      else
        match codec.parse(record.value)
        case Failure(e) => (Err(e), Store(client))
        case Success(v) => (Ok(Defined(v)), Store(client))
  }

  /** `set(key, val, ttl, fn)`: an `undefined` value changes nothing and
      calls back with no arguments; a value that fails to serialise
      reports the error and changes nothing; otherwise the key's payload
      and expiry are overwritten, the key becomes the most recently used,
      every other held key keeps its record except that a new key written
      into a full store evicts the least recently used one, and the value
      is echoed back. */
  function Set(s: Store, key: Lru.Key, val: Arg, ttl: TtlArg, now: int, codec: Codec): (r: (Reply, Store))
    requires Valid(s)
    ensures Valid(r.1) && r.1.client.max == s.client.max
    ensures val.Undefined? ==> r.0 == NoArgs && r.1 == s
    ensures val.Defined? && codec.stringify(val.value).Failure? ==>
              r.0 == Err(codec.stringify(val.value).error) && r.1 == s
    ensures val.Defined? && codec.stringify(val.value).Success? ==>
              && r.0 == Ok(val)
              && key in r.1.client.items
              && r.1.client.items[key] == Record(codec.stringify(val.value).value, ExpireAt(now, ttl))
              && (forall k :: k in r.1.client.items && k != key ==>
                    k in s.client.items && r.1.client.items[k] == s.client.items[k])
    ensures val.Defined? && codec.stringify(val.value).Success? ==>
              var record := Record(codec.stringify(val.value).value, ExpireAt(now, ttl));
              && r.1.client.recency[0] == key
              && (key in s.client.items || |s.client.items| < s.client.max ==>
                    && r.1.client.items == s.client.items[key := record]
                    && r.1.client.recency == [key] + Lru.Without(s.client.recency, key))
              && (key !in s.client.items && |s.client.items| == s.client.max ==>
                    && |s.client.recency| > 0
                    && r.1.client.items == (s.client.items - {Lru.Oldest(s.client)})[key := record]
                    && r.1.client.recency == [key] + s.client.recency[..|s.client.recency| - 1])
  {
    match val
    case Undefined => (NoArgs, s)
    case Defined(v) =>
      match codec.stringify(v)
      case Failure(e) => (Err(e), s)
      case Success(payload) =>
        (Ok(val), Store(Lru.Put(s.client, key, Record(payload, ExpireAt(now, ttl)))))
  }

  /** `del(key, fn)`: `set(key, null, -1, fn)`. The key is not removed: it
      is overwritten with a `null` payload that has already expired. */
  function Del(s: Store, key: Lru.Key, now: int, codec: Codec): (r: (Reply, Store))
    requires Valid(s)
    ensures Valid(r.1) && r.1.client.max == s.client.max
    ensures codec.stringify(Null).Failure? ==> r.0 == Err(codec.stringify(Null).error) && r.1 == s
    ensures codec.stringify(Null).Success? ==>
              && r.0 == Ok(Defined(Null))
              && key in r.1.client.items
              && r.1.client.items[key].value == codec.stringify(Null).value
              && Expired(r.1.client.items[key], now)
  {
    Set(s, key, Defined(Null), TtlNumber(-1), now, codec)
  }

  /** `clear(fn)`: empties the store and calls back with no arguments. */
  function Clear(s: Store): (r: (Reply, Store))
    requires Valid(s)
    ensures Valid(r.1) && r.1.client.max == s.client.max
    ensures r.0 == NoArgs && r.1.client.items == map[]
  {
    (NoArgs, Store(Lru.Reset(s.client)))
  }

  /** One element of the `getAll` result: `{key, data}`. */
  datatype Listing = Listing(key: Lru.Key, data: JsValue)

  /** Parses the payload of each key of `keys` in turn; the first parse
      failure is thrown out of the whole enumeration. */
  function ListAll(keys: seq<Lru.Key>, items: map<Lru.Key, Record>, codec: Codec): (r: Result<seq<Listing>, Exception>)
    requires forall k :: k in keys ==> k in items
    ensures r.Success? <==> forall i :: 0 <= i < |keys| ==> codec.parse(items[keys[i]].value).Success?
    ensures r.Success? ==>
              && |r.value| == |keys|
              && forall i :: 0 <= i < |keys| ==>
                   r.value[i].key == keys[i] && codec.parse(items[keys[i]].value) == Success(r.value[i].data)
    ensures r.Failure? ==>
              exists i :: 0 <= i < |keys| && codec.parse(items[keys[i]].value) == Failure(r.error)
                && forall j :: 0 <= j < i ==> codec.parse(items[keys[j]].value).Success?
  {
    if keys == [] then Success([])
    else
      match codec.parse(items[keys[0]].value)
      case Failure(e) => Failure(e)
      case Success(data) =>
        match ListAll(keys[1..], items, codec)
        case Failure(e) => Failure(e)
        case Success(rest) => Success([Listing(keys[0], data)] + rest)
  }

  /** `getAll(fn)`: one `{key, data}` per held key, in recency order, with
      no expiry filtering and no change to the store. A payload that does
      not parse makes the whole call throw. */
  function GetAll(s: Store, codec: Codec): (r: Result<seq<Listing>, Exception>)
    requires Valid(s)
    ensures r.Success? <==> forall k :: k in s.client.items ==> codec.parse(s.client.items[k].value).Success?
    ensures r.Success? ==>
              && (forall k :: k in s.client.items <==> exists i :: 0 <= i < |r.value| && r.value[i].key == k)
              && (forall i, j :: 0 <= i < j < |r.value| ==> r.value[i].key != r.value[j].key)
              && (forall i :: 0 <= i < |r.value| ==>
                    r.value[i].key in s.client.items
                    && codec.parse(s.client.items[r.value[i].key].value) == Success(r.value[i].data))
    ensures r.Failure? ==>
              exists k :: k in s.client.items && codec.parse(s.client.items[k].value) == Failure(r.error)
  {
    ListAll(s.client.recency, s.client.items, codec)
  }

  /** Round trip: a value that serialises faithfully reads back unchanged
      until its expiry, whatever it is (`0`, `false` and `null` included). */
  lemma SetThenGet(s: Store, key: Lru.Key, v: JsValue, ttl: TtlArg, now: int, later: int, codec: Codec)
    requires Valid(s) && Faithful(codec, v)
    requires later <= ExpireAt(now, ttl)
    ensures var (ack, s1) := Set(s, key, Defined(v), ttl, now, codec);
      ack == Ok(Defined(v)) && Get(s1, key, later, codec).0 == Ok(Defined(v))
  {
  }

  /** A key written with a one-second ttl is a miss, and is dropped, once
      more than a second has passed. */
  lemma ExpiresAfterTtl(s: Store, key: Lru.Key, v: JsValue, now: int, later: int, codec: Codec)
    requires Valid(s) && codec.stringify(v).Success?
    requires later > now + 1000
    ensures var s1 := Set(s, key, Defined(v), TtlNumber(1), now, codec).1;
      var (reply, s2) := Get(s1, key, later, codec);
      reply == NoArgs && key !in s2.client.items
  {
  }

  /** After `del`, every later `get` of the key is a miss that drops the
      key, but until then the key is still held, and `getAll` lists it with
      data `null`. */
  lemma DelHidesButKeeps(s: Store, key: Lru.Key, now: int, later: int, codec: Codec)
    requires Valid(s) && Faithful(codec, Null)
    requires later >= now
    ensures var s1 := Del(s, key, now, codec).1;
      && key in s1.client.items
      && Get(s1, key, later, codec).0 == NoArgs
      && key !in Get(s1, key, later, codec).1.client.items
      && (GetAll(s1, codec).Success? ==>
            exists i :: 0 <= i < |GetAll(s1, codec).value|
              && GetAll(s1, codec).value[i] == Listing(key, Null))
  {
    var s1 := Del(s, key, now, codec).1;
    var r := GetAll(s1, codec);
    if r.Success? {
      var i :| 0 <= i < |r.value| && r.value[i].key == key;
      assert codec.parse(s1.client.items[key].value) == Success(Null);
    }
  }

  /** `del` of a key the store does not hold, on a full store, evicts the
      least recently used entry: deleting can lose an unrelated key. */
  lemma DelOfAbsentKeyEvicts(s: Store, key: Lru.Key, now: int, codec: Codec)
    requires Valid(s) && codec.stringify(Null).Success?
    requires key !in s.client.items && |s.client.items| == s.client.max
    ensures |s.client.recency| > 0
    ensures var s1 := Del(s, key, now, codec).1;
      Lru.Oldest(s.client) !in s1.client.items && Lru.Oldest(s.client) in s.client.items
  {
    Lru.SizeIsRecencyLength(s.client);
  }

  /** `getAll` applies no expiry test: an expired entry that nobody has
      read yet is listed like any other. */
  lemma GetAllListsExpired(s: Store, key: Lru.Key, now: int, codec: Codec)
    requires Valid(s) && key in s.client.items && Expired(s.client.items[key], now)
    requires forall k :: k in s.client.items ==> codec.parse(s.client.items[k].value).Success?
    ensures GetAll(s, codec).Success?
    ensures exists i :: 0 <= i < |GetAll(s, codec).value| && GetAll(s, codec).value[i].key == key
  {
  }

  /** After `clear`, `getAll` is empty and every `get` misses. */
  lemma ClearEmpties(s: Store, now: int, codec: Codec)
    requires Valid(s)
    ensures var s1 := Clear(s).1;
      && GetAll(s1, codec) == Success([])
      && forall k :: Get(s1, k, now, codec).0 == Ok(Undefined)
  {
    var s1 := Clear(s).1;
    var r := GetAll(s1, codec);
    assert r.Success?;
  }

  /** A successful `set` is a `put` of the new record into the container. */
  lemma SetPuts(s: Store, key: Lru.Key, v: JsValue, ttl: TtlArg, now: int, codec: Codec)
    requires Valid(s) && codec.stringify(v).Success?
    ensures Set(s, key, Defined(v), ttl, now, codec).1.client
         == Lru.Put(s.client, key, Record(codec.stringify(v).value, ExpireAt(now, ttl)))
  {
  }

  /** With capacity 2, writing `a`, `b`, `c` evicts `a` and keeps `b` and
      `c`. */
  lemma CapacityTwoEvictsFirst(now: int, codec: Codec)
    requires Faithful(codec, Num(1)) && Faithful(codec, Num(2)) && Faithful(codec, Num(3))
    ensures New(OptionsObject(Some(2))).Success?
    ensures var s0 := New(OptionsObject(Some(2))).value;
      var s1 := Set(s0, "a", Defined(Num(1)), TtlOmitted, now, codec).1;
      var s2 := Set(s1, "b", Defined(Num(2)), TtlOmitted, now, codec).1;
      var s3 := Set(s2, "c", Defined(Num(3)), TtlOmitted, now, codec).1;
      && Get(s3, "a", now, codec).0 == Ok(Undefined)
      && Get(s3, "b", now, codec).0 == Ok(Defined(Num(2)))
      && Get(s3, "c", now, codec).0 == Ok(Defined(Num(3)))
  {
    var s0 := New(OptionsObject(Some(2))).value;
    var r1 := Record(codec.stringify(Num(1)).value, ExpireAt(now, TtlOmitted));
    var r2 := Record(codec.stringify(Num(2)).value, ExpireAt(now, TtlOmitted));
    var r3 := Record(codec.stringify(Num(3)).value, ExpireAt(now, TtlOmitted));
    var s1 := Set(s0, "a", Defined(Num(1)), TtlOmitted, now, codec).1;
    var s2 := Set(s1, "b", Defined(Num(2)), TtlOmitted, now, codec).1;
    var s3 := Set(s2, "c", Defined(Num(3)), TtlOmitted, now, codec).1;
    SetPuts(s0, "a", Num(1), TtlOmitted, now, codec);
    SetPuts(s1, "b", Num(2), TtlOmitted, now, codec);
    SetPuts(s2, "c", Num(3), TtlOmitted, now, codec);
    Lru.ThirdKeyEvictsFirst(s0.client, "a", "b", "c", r1, r2, r3);
    assert s3.client.items == map["b" := r2, "c" := r3];
  }

  /** Reading a key protects it from the next eviction: with capacity 2,
      after setting `a` and `b` and reading `a`, setting `c` evicts `b` and
      keeps `a`. */
  lemma ReadProtectsFromEviction(now: int, codec: Codec)
    requires codec.stringify(Num(1)).Success? && codec.stringify(Num(2)).Success?
    requires codec.stringify(Num(3)).Success?
    ensures New(OptionsObject(Some(2))).Success?
    ensures var s0 := New(OptionsObject(Some(2))).value;
      var s1 := Set(s0, "a", Defined(Num(1)), TtlOmitted, now, codec).1;
      var s2 := Set(s1, "b", Defined(Num(2)), TtlOmitted, now, codec).1;
      var s3 := Get(s2, "a", now, codec).1;
      var s4 := Set(s3, "c", Defined(Num(3)), TtlOmitted, now, codec).1;
      "a" in s4.client.items && "c" in s4.client.items && "b" !in s4.client.items
  {
    var s0 := New(OptionsObject(Some(2))).value;
    var r1 := Record(codec.stringify(Num(1)).value, ExpireAt(now, TtlOmitted));
    var r2 := Record(codec.stringify(Num(2)).value, ExpireAt(now, TtlOmitted));
    var s1 := Set(s0, "a", Defined(Num(1)), TtlOmitted, now, codec).1;
    var s2 := Set(s1, "b", Defined(Num(2)), TtlOmitted, now, codec).1;
    SetPuts(s0, "a", Num(1), TtlOmitted, now, codec);
    SetPuts(s1, "b", Num(2), TtlOmitted, now, codec);
    Lru.TwoWrites(s0.client, "a", "b", r1, r2);
    assert s2.client.recency == ["b", "a"];
    var s3 := Get(s2, "a", now, codec).1;
    var w := Lru.Without(s2.client.recency, "a");
    assert |w| == 1 && "b" in w;
    assert w == ["b"];
    assert s3.client.recency == ["a", "b"];
    Lru.SizeIsRecencyLength(s3.client);
    assert Lru.Oldest(s3.client) == "b";
  }

  /** Reading a live entry does not change what the next read returns. */
  lemma GetRepeatable(s: Store, key: Lru.Key, now: int, later: int, codec: Codec)
    requires Valid(s) && key in s.client.items
    requires now <= later <= s.client.items[key].expire
    ensures Get(Get(s, key, now, codec).1, key, later, codec).0 == Get(s, key, now, codec).0
  {
  }
}

=== FILE: wrappers.dfy ===
/** Optional values and results shared by the rest of the model. */
module Wrappers {

  /** A value that may be missing. */
  datatype Option<+T> = None | Some(value: T)

  /** Either a successful value or the error that prevented it. */
  datatype Result<+T, +E> = Success(value: T) | Failure(error: E)
}
